=== FILE: README.md ===
# Course registration: the student service, verified in Dafny

This project models the course-registration rules of the student service
(`StudentOperationImpl`) of a course registration system. Students select
courses with a preference, may drop them, see their confirmed courses and
their grade report once approved, and count as registered once four of
their selections are confirmed.

The store behind the service is modelled as one in-memory snapshot `Db`
(`crs_model.dfy`): the set of student ids, the course catalog (course id to
name), the student-course map as a sequence of rows (student, course,
preference, registration flag 0 or 1), the grade cards, and the approval
flags. `Valid` states the store's referential integrity: rows and cards
name existing students and catalog courses, flags are 0 or 1.

- `student_operation.dfy` (module `StudentOperation`): each service
  operation as a function of a snapshot. A writing operation returns a
  `Step`: its result (`Ok` or `Err` with the error kind) and the
  snapshot afterwards. Every failure returns the snapshot unchanged.
- `student_store.dfy` (module `StudentStore`): class `Store`, whose
  fields are the store's tables, with one method per operation except
  `isRegistered` (which stays the function `StudentOperation.IsRegistered`),
  written as
  the source does it: the validation pass and then the write pass of
  `addCourses`, the read-then-delete of `dropCourses`, and the loops that
  build the listing maps and the grade report. Each method is proved to
  return what the matching function returns and to leave the store in the
  state it gives. The writing methods are also proved to keep `Valid`.
- `student_operation_lemmas.dfy` (module `StudentOperationLemmas`): the
  properties. These cover the order of the checks, what a successful add or
  drop writes, that the limit looks only at the prior count, that duplicates
  are not rejected, approval gating, the listing contents and the report
  contents.
- `seq_util.dfy` (module `SeqUtil`): generic helpers. `Filter` is a
  repository's "find all rows where", `IndexOf` finds the first match, and
  `Positions` counts a second, independent way.

Two behaviours of the code are worth stating:

- `addCourses` has no ceiling on the number of rows a student ends up
  with. Its only limit is the `> 6` test on the prior row count
  (StudentOperationImpl.java:76), so a successful call adds every
  selection, whatever the batch size (`AddCoursesLimitIgnoresBatchSize`).
- The javadoc of `addCourses` declares `@throws DuplicateCourseEntryException`
  (StudentOperationImpl.java:67), and the class imports it (:22). Yet no
  line throws it. Selecting a course a second time adds a second row
  (`AddCoursesAllowsDuplicate`).

## Model

| member | source | states |
|---|---|---|
| StudentOperation.RegisterCourses | CRS-STUDENT-MICROSERVICE/src/main/java/com/crs/service/StudentOperationImpl.java:54-61 | fails with UserNotFound exactly for an unknown student, changing nothing; otherwise only the student's registration trigger is recorded |
| StudentStore.Store.RegisterCourses | CRS-STUDENT-MICROSERVICE/src/main/java/com/crs/service/StudentOperationImpl.java:54-61 | the method returns and leaves the state the function gives, and keeps the store valid |
| StudentOperation.AddCourses | CRS-STUDENT-MICROSERVICE/src/main/java/com/crs/service/StudentOperationImpl.java:71-96 | on any failure the store is unchanged; in every case only the rows change, and the old rows stay in place as a prefix |
| StudentOperationLemmas.AddCoursesChecksInOrder | CRS-STUDENT-MICROSERVICE/src/main/java/com/crs/service/StudentOperationImpl.java:73-85 | checks in order, first failure wins: unknown student gives UserNotFound; more than 6 prior rows gives CourseLimitExceeded; then the first selection missing from the catalog gives CourseNotFound with that id; success exactly when all pass |
| StudentOperationLemmas.AddCoursesWritesSelections | CRS-STUDENT-MICROSERVICE/src/main/java/com/crs/service/StudentOperationImpl.java:87-94 | on success, one row per selection is appended after the old rows, in request order, each for the student with the selection's course, its catalog name, its preference and isRegister 0 |
| StudentOperationLemmas.AddCoursesCounts | CRS-STUDENT-MICROSERVICE/src/main/java/com/crs/service/StudentOperationImpl.java:87-94 | on success the student's row count grows by exactly the number of selections; other students' rows and everyone's confirmed count are unchanged |
| StudentOperationLemmas.AddCoursesLimitIgnoresBatchSize | CRS-STUDENT-MICROSERVICE/src/main/java/com/crs/service/StudentOperationImpl.java:76-78 | with a known student and catalog courses, success exactly when the prior count is at most 6 (6 passes), and the count then grows by the whole batch, however large |
| StudentOperationLemmas.AddCoursesAllowsDuplicate | CRS-STUDENT-MICROSERVICE/src/main/java/com/crs/service/StudentOperationImpl.java:87-94 | selecting a course the student already holds a row for succeeds and leaves at least two rows for that pair: no duplicate check |
| StudentOperationLemmas.AddCoursesPreservesValid | CRS-STUDENT-MICROSERVICE/src/main/java/com/crs/service/StudentOperationImpl.java:79-94 | validate-then-write keeps referential integrity: every written row names a catalog course |
| StudentOperationLemmas.AddCoursesListings | CRS-STUDENT-MICROSERVICE/src/main/java/com/crs/service/StudentOperationImpl.java:87-94 | adding never changes any student's confirmed listing; on success the added-course keys grow by exactly the selected ids |
| StudentStore.Store.AddCourses | CRS-STUDENT-MICROSERVICE/src/main/java/com/crs/service/StudentOperationImpl.java:71-96 | validation loop then write loop: on failure the rows are unchanged; on success the rows are the old rows plus one new row per selection; result and state equal the function's; validity kept |
| StudentOperation.DropCourses | CRS-STUDENT-MICROSERVICE/src/main/java/com/crs/service/StudentOperationImpl.java:109-121 | on failure the store is unchanged; only the rows change; on success no row for the pair remains; every row for another pair is kept |
| StudentOperationLemmas.DropCoursesChecksInOrder | CRS-STUDENT-MICROSERVICE/src/main/java/com/crs/service/StudentOperationImpl.java:112-120 | unknown student gives UserNotFound, then unknown course gives CourseNotFound; past both, success exactly when a row for the pair exists; every failure leaves the store unchanged |
| StudentOperationLemmas.DropCoursesReturnsPriorFlag | CRS-STUDENT-MICROSERVICE/src/main/java/com/crs/service/StudentOperationImpl.java:118-120 | the returned value is the registration flag of the first row for the pair before deletion (0 or 1 in a valid store); afterwards the rows are the old rows minus those for the pair, in order |
| StudentOperationLemmas.DropCoursesPreservesValid | CRS-STUDENT-MICROSERVICE/src/main/java/com/crs/service/StudentOperationImpl.java:118-119 | deleting keeps referential integrity |
| StudentOperationLemmas.DropConfirmedCourse | CRS-STUDENT-MICROSERVICE/src/main/java/com/crs/service/StudentOperationImpl.java:118-120 | dropping a confirmed course (returns 1) lowers the student's confirmed count and removes the course from the confirmed listing |
| StudentStore.Store.DropCourses | CRS-STUDENT-MICROSERVICE/src/main/java/com/crs/service/StudentOperationImpl.java:109-121 | read the flag, delete the pair's rows, return the flag; result and state equal the function's; validity kept |
| StudentOperation.ListCourse | CRS-STUDENT-MICROSERVICE/src/main/java/com/crs/service/StudentOperationImpl.java:131-144 | fails with UserNotApproved exactly when the approval flag is below 1; otherwise the keys are exactly the course ids of the student's confirmed rows |
| StudentOperationLemmas.ListCourseContents | CRS-STUDENT-MICROSERVICE/src/main/java/com/crs/service/StudentOperationImpl.java:137-142 | for an approved student in a valid store, every listed course carries its catalog name, and the listing is contained in the added courses under the same names |
| StudentStore.Store.ListCourse | CRS-STUDENT-MICROSERVICE/src/main/java/com/crs/service/StudentOperationImpl.java:131-144 | approval check then the map-building loop; reads only; result equals the function's |
| StudentStore.PutAll | CRS-STUDENT-MICROSERVICE/src/main/java/com/crs/service/StudentOperationImpl.java:138-141 | the put loop yields the course map of the rows |
| CrsModel.CourseMap | CRS-STUDENT-MICROSERVICE/src/main/java/com/crs/service/StudentOperationImpl.java:138-141 | the map's keys are exactly the rows' course ids, and each key maps to the name of one of its rows |
| StudentOperation.GetAddedCourses | CRS-STUDENT-MICROSERVICE/src/main/java/com/crs/service/StudentOperationImpl.java:221-228 | no approval check; keys are exactly the course ids of all the student's rows, preferences and confirmed alike |
| StudentOperationLemmas.AddedCoursesNames | CRS-STUDENT-MICROSERVICE/src/main/java/com/crs/service/StudentOperationImpl.java:218-228 | in a valid store, every added course, preference or confirmed, is a catalog course and maps to its catalog name |
| StudentStore.Store.GetAddedCourses | CRS-STUDENT-MICROSERVICE/src/main/java/com/crs/service/StudentOperationImpl.java:221-228 | the map-building loop; reads only; result equals the function's |
| StudentOperationLemmas.NoRowsNoListings | CRS-STUDENT-MICROSERVICE/src/main/java/com/crs/service/StudentOperationImpl.java:221-228 | a student with no rows has no added courses and, when approved, an empty confirmed listing |
| StudentOperationLemmas.FirstAddToEmpty | CRS-STUDENT-MICROSERVICE/src/main/java/com/crs/service/StudentOperationImpl.java:71-96 | a known, approved student with no rows who adds catalog courses succeeds, then holds exactly the selected course ids as added courses, while the confirmed listing stays empty |
| StudentOperationLemmas.AddTwoCoursesScenario | CRS-STUDENT-MICROSERVICE/src/main/java/com/crs/service/StudentOperationImpl.java:71-96 | an approved student without rows adds two catalog courses (CS101 and CS102, say): both are among the added courses, and the confirmed listing stays empty |
| StudentOperation.ViewReportCard | CRS-STUDENT-MICROSERVICE/src/main/java/com/crs/service/StudentOperationImpl.java:165-178 | flag below 1 gives UserNotApproved; a report is for the asked student with one line per grade card of the student; an approved student of a valid store always gets a report |
| StudentOperationLemmas.ReportCardDetails | CRS-STUDENT-MICROSERVICE/src/main/java/com/crs/service/StudentOperationImpl.java:170-177 | for an approved student of a valid store: one line per grade card of the student, counted by positions, in card order, each with the card's course id, its catalog name and the grade; no cards gives an empty report, not an error |
| StudentStore.Store.ViewReportCard | CRS-STUDENT-MICROSERVICE/src/main/java/com/crs/service/StudentOperationImpl.java:165-178 | approval check then the loop appending one line per card; reads only; result equals the function's |
| StudentOperation.IsRegistered | CRS-STUDENT-MICROSERVICE/src/main/java/com/crs/service/StudentOperationImpl.java:193-201 | true exactly when the number of positions holding a confirmed row of the student is at least 4 |

## Left out

- `isApproved`, `getStudentByEmail`, `isStudentRegistered` and
  `viewCourseCatalog` only pass a repository answer through. They are not
  modelled. The approval flag they would return is `ApprovalOf`, which reads
  0 for a student without a flag.
- The query bodies of `getCourseCount`, `countByStudentAndIsRegister`,
  `findCoursePreference`, `dropCourses`, `listCourse`, `getAddedCourses` and
  `findByStudent` are declared in the service's repositories, outside the
  service: `countByStudentAndIsRegister` in `StudentCourseMappingRepository`,
  `findByStudent` in `GradeCardRepository`, the rest in `StudentRepository`.
  The model abstracts them over the row sequence as `CrsModel.CourseCount`
  and `CrsModel.ConfirmedCount` (counts),
  `StudentOperation.CoursePreference` (the first matching row's flag),
  `SeqUtil.Filter` with `CrsModel.OtherThanPair` (remove all matching rows)
  and `SeqUtil.Filter` with `CrsModel.ConfirmedBy`, `CrsModel.OwnedBy` and
  `CrsModel.GradedFor` (order-preserving selections).
- The repository's `registerCourses` is not part of this model.
  StudentOperation.RegisterCourses records the triggered student in
  `registrationRequests` and does nothing else.
- The listing maps in the source are keyed by an integer column of a query
  that is not part of this model. The model keys them by course id.
- The selection map of `addCourses` is a hash map, with no defined
  iteration order. The model takes the selections as a sequence and
  validates and writes in that order. Which missing id is reported first
  depends on that order. The map's keys make course ids distinct within one
  call in the source; the model does not require it, so a selection
  sequence naming one id twice writes two rows in one call, which the source
  cannot do.
- StudentOperation.AddCourses: the source's preferences are boxed `Integer`
  values. A null preference, or a null course map, throws while the
  validation pass unboxes it (StudentOperationImpl.java:79-81), possibly
  before a later course's CourseNotFound. The model's preference is an `int`,
  so this error path is not modelled.
- findCoursePreference returns null when the pair has no row, and unboxing it
  throws after the (empty) delete, which rolls back. The model returns
  `Err(PreferenceMissing)` with the store unchanged.
- StudentOperation.DropCourses: with several rows for one pair, the model
  returns the first row's flag. What the source's single-result query does
  then is not known.
- StudentOperation.IsRegistered requires a known student. The source calls
  `Optional.get()` and throws for an unknown one.
- StudentOperation.ViewReportCard gives `Err(UserNotFound)` for an approved
  id with no student behind it, where the source's `Optional.get()` would
  throw. In a valid store this cannot happen.
- Each operation is one atomic step. Transactions, isolation, concurrent
  callers and storage failures are not modelled, and neither are Spring
  wiring, DTO and `Object[]` row marshalling, or exception classes beyond
  their kinds.
- The grade-card repository of the professor service is not modelled. It
  declares only `findByStudentAndCatalog`, which the student service does
  not call.
- Java's 32-bit `int` is modelled as an unbounded integer. No operation
  does arithmetic that could overflow.

=== FILE: crs_model.dfy ===
/**
 * The data the student service works on: the students, the course catalog,
 * the student-course map (one row per selected course, with its preference
 * and its registration flag), the grade cards and the approval flags, seen
 * as one snapshot `Db` of the store.
 */
module CrsModel {
  import opened SeqUtil

  type StudentId = int
  type CourseId = string

  /** A catalog course as a row references it: its id and its display name. */
  datatype Course = Course(id: CourseId, name: string)

  /** One row of the student-course map; `isRegister` is 0 (preference) or 1 (confirmed). */
  datatype Entry = Entry(student: StudentId, course: Course, pref: int, isRegister: int)

  /** One grade card row. */
  datatype GradeRecord = GradeRecord(student: StudentId, course: Course, grade: string)

  /** One (course id, preference) pair of an add-courses request. */
  datatype Selection = Selection(courseId: CourseId, pref: int)

  /** One line of a grade report. */
  datatype GradeDetail = GradeDetail(courseId: CourseId, courseName: string, grade: string)

  datatype GradeReport = GradeReport(studentId: StudentId, details: seq<GradeDetail>)

  /** The failures the service reports. */
  datatype Error =
    | UserNotFound(student: StudentId)
    | CourseLimitExceeded
    | CourseNotFound(courseId: CourseId)
    | UserNotApproved(student: StudentId)
      /** Drop of a course the student never selected (the registration flag read back is absent). */
    | PreferenceMissing(student: StudentId, courseId: CourseId)

  datatype Result<T> = Ok(value: T) | Err(error: Error)

  /** A snapshot of the store. */
  datatype Db = Db(
    students: set<StudentId>,
    catalog: map<CourseId, string>,
    entries: seq<Entry>,
    grades: seq<GradeRecord>,
    approval: map<StudentId, int>,
    registrationRequests: set<StudentId>)

  /** Adding is refused once a student already holds more than this many rows. */
  const CourseLimit := 6

  /** Confirmed rows a student needs to count as registered. */
  const RegistrationThreshold := 4

  /** `c` is a course of the catalog, under its catalog name. */
  predicate Listed(catalog: map<CourseId, string>, c: Course)
  {
    c.id in catalog && catalog[c.id] == c.name
  }

  /**
   * Referential integrity of the store: rows refer to existing students and
   * catalog courses, approval flags belong to students, registration flags
   * are 0 or 1.
   */
  predicate Valid(db: Db)
  {
    && db.approval.Keys <= db.students
    && (forall e | e in db.entries ::
          e.student in db.students && Listed(db.catalog, e.course) && 0 <= e.isRegister <= 1)
    && (forall g | g in db.grades :: g.student in db.students && Listed(db.catalog, g.course))
  }

  /** The approval flag of `u`; a student without a flag reads as 0 (not approved). */
  function ApprovalOf(db: Db, u: StudentId): int
  {
    if u in db.approval then db.approval[u] else 0
  }

  /** Rows of student `u`. */
  function OwnedBy(u: StudentId): Entry -> bool
  {
    (e: Entry) => e.student == u
  }

  /** Confirmed rows of student `u`. */
  function ConfirmedBy(u: StudentId): Entry -> bool
  {
    (e: Entry) => e.student == u && e.isRegister == 1
  }

  /** Rows of student `u` for course `c`. */
  function ForPair(u: StudentId, c: CourseId): Entry -> bool
  {
    (e: Entry) => e.student == u && e.course.id == c
  }

  /** Rows that are not for the pair (`u`, `c`). */
  function OtherThanPair(u: StudentId, c: CourseId): Entry -> bool
  {
    (e: Entry) => !(e.student == u && e.course.id == c)
  }

  /** Grade cards of student `u`. */
  function GradedFor(u: StudentId): GradeRecord -> bool
  {
    (g: GradeRecord) => g.student == u
  }

  /** Selections naming a course missing from the catalog. */
  function Unlisted(catalog: map<CourseId, string>): Selection -> bool
  {
    (s: Selection) => s.courseId !in catalog
  }

  /** Number of rows student `u` holds (the repository's course count). */
  function CourseCount(entries: seq<Entry>, u: StudentId): nat
  {
    |Filter(entries, OwnedBy(u))|
  }

  /** Number of confirmed rows student `u` holds (count by student and isRegister = 1). */
  function ConfirmedCount(entries: seq<Entry>, u: StudentId): nat
  {
    |Filter(entries, ConfirmedBy(u))|
  }

  /** The course ids of the rows of `entries` that satisfy `p`. */
  ghost function IdsWhere(entries: seq<Entry>, p: Entry -> bool): set<CourseId>
  {
    set e | e in entries && p(e) :: e.course.id
  }

  /** The (course id, course name) projection of some rows. */
  function CoursesOf(entries: seq<Entry>): seq<Course>
  {
    seq(|entries|, i requires 0 <= i < |entries| => entries[i].course)
  }

  /**
   * The map obtained by putting every row's id and name in order, later rows
   * overwriting earlier ones with the same id.
   */
  function CourseMap(rows: seq<Course>): (m: map<CourseId, string>)
    ensures m.Keys == set c | c in rows :: c.id
    ensures forall k | k in m :: Course(k, m[k]) in rows
    decreases |rows|
  {
    if rows == [] then map[]
    else
      var n := |rows| - 1;
      assert rows == rows[..n] + [rows[n]];
      CourseMap(rows[..n])[rows[n].id := rows[n].name]
  }

  /** The report line for one grade card. */
  function Detail(g: GradeRecord): GradeDetail
  {
    GradeDetail(g.course.id, g.course.name, g.grade)
  }

  /** The report lines for some grade cards, one per card, in order. */
  function Details(gs: seq<GradeRecord>): seq<GradeDetail>
  {
    seq(|gs|, i requires 0 <= i < |gs| => Detail(gs[i]))
  }

  /** The keys of the course map built from some rows are exactly the course ids of those rows. */
  lemma CourseMapKeys(entries: seq<Entry>, p: Entry -> bool)
    ensures CourseMap(CoursesOf(Filter(entries, p))).Keys == IdsWhere(entries, p)
  {
    var f := Filter(entries, p);
    var rows := CoursesOf(f);
    var m := CourseMap(rows);
    forall k | k in m.Keys
      ensures k in IdsWhere(entries, p)
    {
      var c :| c in rows && c.id == k;
      var i :| 0 <= i < |rows| && rows[i] == c;
      assert f[i] in f;
    }
    forall k | k in IdsWhere(entries, p)
      ensures k in m.Keys
    {
      var e :| e in entries && p(e) && e.course.id == k;
      assert e in f;
      var i :| 0 <= i < |f| && f[i] == e;
      assert rows[i] in rows;
    }
  }

  /** When every row names a catalog course, the course map holds catalog names. */
  lemma CourseMapNames(entries: seq<Entry>, p: Entry -> bool, catalog: map<CourseId, string>)
    requires forall e | e in entries :: Listed(catalog, e.course)
    ensures forall k | k in CourseMap(CoursesOf(Filter(entries, p))) ::
              k in catalog && CourseMap(CoursesOf(Filter(entries, p)))[k] == catalog[k]
  {
    var f := Filter(entries, p);
    var rows := CoursesOf(f);
    var m := CourseMap(rows);
    forall k | k in m
      ensures k in catalog && m[k] == catalog[k]
    {
      var i :| 0 <= i < |rows| && rows[i] == Course(k, m[k]);
      assert f[i] in f;
    }
  }
}

=== FILE: seq_util.dfy ===
/**
 * Generic sequence helpers used by the registration model: order-preserving
 * filtering (the shape of a repository's "find all rows where ..." query),
 * searching for the first element that satisfies a predicate, and the set of
 * positions that satisfy it (an independent way to count).
 */
module SeqUtil {

  datatype Option<T> = None | Some(value: T)

  /** The elements of `s` that satisfy `p`, in their original order. */
  function Filter<T(!new)>(s: seq<T>, p: T -> bool): (r: seq<T>)
    ensures |r| <= |s|
    ensures forall x :: x in r <==> x in s && p(x)
    decreases |s|
  {
    if s == [] then []
    else
      var n := |s| - 1;
      assert s == s[..n] + [s[n]];
      Filter(s[..n], p) + (if p(s[n]) then [s[n]] else [])
  }

  /** Filtering distributes over concatenation. */
  lemma {:induction false} FilterAppend<T(!new)>(a: seq<T>, b: seq<T>, p: T -> bool)
    ensures Filter(a + b, p) == Filter(a, p) + Filter(b, p)
    decreases |b|
  {
    if b == [] {
      assert a + b == a;
    } else {
      var n := |b| - 1;
      assert (a + b)[..|a + b| - 1] == a + b[..n];
      FilterAppend(a, b[..n], p);
    }
  }

  /** A sequence none of whose elements satisfies `p` filters to nothing. */
  lemma FilterNone<T(!new)>(s: seq<T>, p: T -> bool)
    requires forall x | x in s :: !p(x)
    ensures Filter(s, p) == []
  {
  }

  /** A sequence all of whose elements satisfy `p` is its own filter. */
  lemma {:induction false} FilterAll<T(!new)>(s: seq<T>, p: T -> bool)
    requires forall x | x in s :: p(x)
    ensures Filter(s, p) == s
    decreases |s|
  {
    if s != [] {
      var n := |s| - 1;
      assert s == s[..n] + [s[n]];
      FilterAll(s[..n], p);
    }
  }

  /** The positions of `s` whose element satisfies `p`. */
  ghost function Positions<T>(s: seq<T>, p: T -> bool): set<nat>
  {
    set i: nat | i < |s| && p(s[i])
  }

  /** Counting by filtering agrees with counting positions. */
  lemma {:induction false} FilterCountsPositions<T(!new)>(s: seq<T>, p: T -> bool)
    ensures |Filter(s, p)| == |Positions(s, p)|
    decreases |s|
  {
    if s != [] {
      var n := |s| - 1;
      var prefix := s[..n];
      FilterCountsPositions(prefix, p);
      PositionsLast(s, p);
    }
  }

  /** Extending a sequence by one element adds at most its own position. */
  lemma PositionsLast<T>(s: seq<T>, p: T -> bool)
    requires s != []
    ensures p(s[|s| - 1]) ==> Positions(s, p) == Positions(s[..|s| - 1], p) + {|s| - 1}
    ensures !p(s[|s| - 1]) ==> Positions(s, p) == Positions(s[..|s| - 1], p)
    ensures |s| - 1 !in Positions(s[..|s| - 1], p)
  {
  }

  /** The first position at or after `i` whose element satisfies `p`. */
  function IndexFrom<T>(s: seq<T>, p: T -> bool, i: nat): (r: Option<nat>)
    requires i <= |s|
    ensures r.Some? ==> i <= r.value < |s| && p(s[r.value])
    ensures r.Some? ==> forall j | i <= j < r.value :: !p(s[j])
    ensures r.None? ==> forall j | i <= j < |s| :: !p(s[j])
    decreases |s| - i
  {
    if i == |s| then None
    else if p(s[i]) then Some(i)
    else IndexFrom(s, p, i + 1)
  }

  /** The first position of `s` whose element satisfies `p`, if there is one. */
  function IndexOf<T>(s: seq<T>, p: T -> bool): (r: Option<nat>)
    ensures r.Some? ==> r.value < |s| && p(s[r.value])
    ensures r.Some? ==> forall j | 0 <= j < r.value :: !p(s[j])
    ensures r.None? <==> forall j | 0 <= j < |s| :: !p(s[j])
  {
    IndexFrom(s, p, 0)
  }

  /** Unfolds `Filter` on a non-empty sequence at its last element. */
  lemma FilterLast<T(!new)>(s: seq<T>, p: T -> bool)
    requires s != []
    ensures p(s[|s| - 1]) ==> Filter(s, p) == Filter(s[..|s| - 1], p) + [s[|s| - 1]]
    ensures !p(s[|s| - 1]) ==> Filter(s, p) == Filter(s[..|s| - 1], p)
  {
  }

  /** Filtering by `q` first never adds elements satisfying `p`. */
  lemma {:induction false} FilterFilterCount<T(!new)>(s: seq<T>, p: T -> bool, q: T -> bool)
    ensures |Filter(Filter(s, q), p)| <= |Filter(s, p)|
    decreases |s|
  {
    if s != [] {
      var n := |s| - 1;
      var prefix, last := s[..n], s[n];
      FilterFilterCount(prefix, p, q);
      FilterLast(s, p);
      FilterLast(s, q);
      if q(last) {
        FilterAppend(Filter(prefix, q), [last], p);
        FilterLast([last], p);
      }
    }
  }

  /** ... and removes at least one when some element satisfies `p` but not `q`. */
  lemma {:induction false} FilterFilterCountStrict<T(!new)>(s: seq<T>, p: T -> bool, q: T -> bool, i: nat)
    requires i < |s| && p(s[i]) && !q(s[i])
    ensures |Filter(Filter(s, q), p)| < |Filter(s, p)|
    decreases |s|
  {
    var n := |s| - 1;
    var prefix, last := s[..n], s[n];
    assert s == prefix + [last];
    var kept := Filter(Filter(prefix, q), p);
    var all := Filter(prefix, p);
    FilterLast(s, p);
    FilterLast(s, q);
    if i < n {
      assert prefix[i] == s[i];
      FilterFilterCountStrict(prefix, p, q, i);
      assert |kept| < |all|;
      if q(last) {
        FilterAppend(Filter(prefix, q), [last], p);
        FilterLast([last], p);
        assert |Filter(Filter(s, q), p)| == |kept| + |Filter([last], p)|;
      } else {
        assert Filter(Filter(s, q), p) == kept;
      }
    } else {
      FilterFilterCount(prefix, p, q);
      assert Filter(s, p) == all + [last];
      assert Filter(Filter(s, q), p) == kept;
    }
  }
}

=== FILE: student_operation.dfy ===
/**
 * The student service's operations as functions of a store snapshot. An
 * operation that writes returns a `Step`: what the caller gets back and the
 * snapshot afterwards. Each operation is one atomic step; on every failure
 * the snapshot is returned unchanged, because the failure is raised before
 * any write or, for a drop with no row for the pair, because the transaction
 * that carries the drop is rolled back.
 */
module StudentOperation {
  import opened SeqUtil
  import opened CrsModel

  datatype Step<T> = Step(result: Result<T>, db: Db)

  /**
   * registerCourses: a known student's registration is triggered in the
   * store; an unknown one is refused.
   */
  function RegisterCourses(db: Db, u: StudentId): (s: Step<()>)
    ensures s.result.Ok? <==> u in db.students
    ensures s.result.Err? ==> s.result.error == UserNotFound(u) && s.db == db
    ensures s.result.Ok? ==> s.db == db.(registrationRequests := db.registrationRequests + {u})
  {
    if u !in db.students then Step(Err(UserNotFound(u)), db)
    else Step(Ok(()), db.(registrationRequests := db.registrationRequests + {u}))
  }

  /** The row written for one selection: a preference, not yet registered. */
  function NewEntry(catalog: map<CourseId, string>, u: StudentId, s: Selection): Entry
    requires s.courseId in catalog
  {
    Entry(u, Course(s.courseId, catalog[s.courseId]), s.pref, 0)
  }

  /** The rows written for a whole request, one per selection, in request order. */
  function NewEntries(catalog: map<CourseId, string>, u: StudentId, sel: seq<Selection>): seq<Entry>
    requires forall s | s in sel :: s.courseId in catalog
  {
    seq(|sel|, i requires 0 <= i < |sel| => NewEntry(catalog, u, sel[i]))
  }

  /**
   * addCourses: the student must exist, must not already hold more than
   * `CourseLimit` rows, and every selected course must be in the catalog
   * (the first missing one is reported); only then is one row appended per
   * selection.
   */
  function AddCourses(db: Db, u: StudentId, sel: seq<Selection>): (s: Step<()>)
    ensures s.result.Err? ==> s.db == db
    ensures s.db == db.(entries := s.db.entries)
    ensures |db.entries| <= |s.db.entries| && s.db.entries[..|db.entries|] == db.entries
  {
    if u !in db.students then Step(Err(UserNotFound(u)), db)
    else if CourseCount(db.entries, u) > CourseLimit then Step(Err(CourseLimitExceeded), db)
    else
      match IndexOf(sel, Unlisted(db.catalog))
      case Some(i) => Step(Err(CourseNotFound(sel[i].courseId)), db)
      case None => Step(Ok(()), db.(entries := db.entries + NewEntries(db.catalog, u, sel)))
  }

  /** The registration flag of the first row for (`u`, `c`), if there is one. */
  function CoursePreference(entries: seq<Entry>, u: StudentId, c: CourseId): Option<int>
  {
    match IndexOf(entries, ForPair(u, c))
    case None => None
    case Some(k) => Some(entries[k].isRegister)
  }

  /**
   * dropCourses: the student and the course must exist; the registration
   * flag is read, every row for the pair is deleted and the flag read is
   * returned. With no row to read the call fails and nothing changes.
   */
  function DropCourses(db: Db, u: StudentId, c: CourseId): (s: Step<int>)
    ensures s.result.Err? ==> s.db == db
    ensures s.db == db.(entries := s.db.entries)
    ensures s.result.Ok? ==> forall e | e in s.db.entries :: !(e.student == u && e.course.id == c)
    ensures forall e | e in db.entries && !(e.student == u && e.course.id == c) :: e in s.db.entries
  {
    if u !in db.students then Step(Err(UserNotFound(u)), db)
    else if c !in db.catalog then Step(Err(CourseNotFound(c)), db)
    else
      match CoursePreference(db.entries, u, c)
      case None => Step(Err(PreferenceMissing(u, c)), db)
      case Some(flag) => Step(Ok(flag), db.(entries := Filter(db.entries, OtherThanPair(u, c))))
  }

  /**
   * listCourse: for an approved student, the confirmed courses as a map from
   * course id to course name.
   */
  function ListCourse(db: Db, u: StudentId): (r: Result<map<CourseId, string>>)
    ensures r.Err? <==> ApprovalOf(db, u) < 1
    ensures r.Err? ==> r.error == UserNotApproved(u)
    ensures r.Ok? ==> r.value.Keys == IdsWhere(db.entries, ConfirmedBy(u))
  {
    if ApprovalOf(db, u) < 1 then Err(UserNotApproved(u))
    else
      CourseMapKeys(db.entries, ConfirmedBy(u));
      Ok(CourseMap(CoursesOf(Filter(db.entries, ConfirmedBy(u)))))
  }

  /**
   * getAddedCourses: every course the student holds a row for, preference or
   * confirmed, as a map from course id to course name; no approval needed.
   */
  function GetAddedCourses(db: Db, u: StudentId): (m: map<CourseId, string>)
    ensures m.Keys == IdsWhere(db.entries, OwnedBy(u))
  {
    CourseMapKeys(db.entries, OwnedBy(u));
    CourseMap(CoursesOf(Filter(db.entries, OwnedBy(u))))
  }

  /**
   * viewReportCard: for an approved student, one report line per grade card
   * of the student, in the order the cards are found. An approved id with
   * no student behind it fails with UserNotFound.
   */
  function ViewReportCard(db: Db, u: StudentId): (r: Result<GradeReport>)
    ensures ApprovalOf(db, u) < 1 ==> r == Err(UserNotApproved(u))
    ensures r.Ok? ==> r.value.studentId == u
    ensures r.Ok? ==> |r.value.details| == |Filter(db.grades, GradedFor(u))|
    ensures Valid(db) && ApprovalOf(db, u) >= 1 ==> r.Ok?
  {
    if ApprovalOf(db, u) < 1 then Err(UserNotApproved(u))
    else if u !in db.students then Err(UserNotFound(u))
    else Ok(GradeReport(u, Details(Filter(db.grades, GradedFor(u)))))
  }

  /**
   * isRegistered: a student is registered when at least
   * `RegistrationThreshold` of their rows are confirmed.
   */
  function IsRegistered(db: Db, u: StudentId): (b: bool)
    requires u in db.students
    ensures b <==> |Positions(db.entries, ConfirmedBy(u))| >= RegistrationThreshold
  {
    FilterCountsPositions(db.entries, ConfirmedBy(u));
    ConfirmedCount(db.entries, u) >= RegistrationThreshold
  }
}

=== FILE: student_operation_lemmas.dfy ===
/**
 * Properties of the student service's operations: the order of the checks,
 * what a successful add or drop writes, the integrity of the store, approval
 * gating and the shape of the listings and the grade report.
 */
module StudentOperationLemmas {
  import opened SeqUtil
  import opened CrsModel
  import opened StudentOperation

  // ---------------------------------------------------------------- addCourses

  /**
   * The checks of addCourses in order, the first failure winning: unknown
   * student, then more than `CourseLimit` rows already held, then the first
   * selected course missing from the catalog. It succeeds exactly when all
   * three pass.
   */
  lemma AddCoursesChecksInOrder(db: Db, u: StudentId, sel: seq<Selection>)
    ensures u !in db.students ==> AddCourses(db, u, sel).result == Err(UserNotFound(u))
    ensures u in db.students && CourseCount(db.entries, u) > CourseLimit ==>
              AddCourses(db, u, sel).result == Err(CourseLimitExceeded)
    ensures forall i | 0 <= i < |sel| ::
              u in db.students && CourseCount(db.entries, u) <= CourseLimit &&
              sel[i].courseId !in db.catalog &&
              (forall j | 0 <= j < i :: sel[j].courseId in db.catalog) ==>
                AddCourses(db, u, sel).result == Err(CourseNotFound(sel[i].courseId))
    ensures AddCourses(db, u, sel).result.Ok? <==>
              u in db.students && CourseCount(db.entries, u) <= CourseLimit &&
              forall s | s in sel :: s.courseId in db.catalog
  {
  }

  /**
   * A successful addCourses appends one preference row per selection, in
   * request order, after the untouched old rows.
   */
  lemma AddCoursesWritesSelections(db: Db, u: StudentId, sel: seq<Selection>)
    requires AddCourses(db, u, sel).result.Ok?
    ensures forall s | s in sel :: s.courseId in db.catalog
    ensures AddCourses(db, u, sel).db.entries[..|db.entries|] == db.entries
    ensures |AddCourses(db, u, sel).db.entries| == |db.entries| + |sel|
    ensures forall i | 0 <= i < |sel| ::
              AddCourses(db, u, sel).db.entries[|db.entries| + i] ==
                Entry(u, Course(sel[i].courseId, db.catalog[sel[i].courseId]), sel[i].pref, 0)
  {
    AddCoursesChecksInOrder(db, u, sel);
  }

  /**
   * On success the student's row count grows by the number of selections, no
   * other student's rows change, and nobody's confirmed count changes.
   */
  lemma AddCoursesCounts(db: Db, u: StudentId, sel: seq<Selection>)
    requires AddCourses(db, u, sel).result.Ok?
    ensures CourseCount(AddCourses(db, u, sel).db.entries, u) == CourseCount(db.entries, u) + |sel|
    ensures forall v | v != u ::
              Filter(AddCourses(db, u, sel).db.entries, OwnedBy(v)) == Filter(db.entries, OwnedBy(v))
    ensures forall v :: ConfirmedCount(AddCourses(db, u, sel).db.entries, v) == ConfirmedCount(db.entries, v)
  {
    AddCoursesChecksInOrder(db, u, sel);
    var added := NewEntries(db.catalog, u, sel);
    assert AddCourses(db, u, sel).db.entries == db.entries + added;
    OwnRowsAppended(db.entries, added, u);
    forall v
      ensures ConfirmedCount(db.entries + added, v) == ConfirmedCount(db.entries, v)
    {
      assert Filter(db.entries + added, ConfirmedBy(v)) == Filter(db.entries, ConfirmedBy(v));
    }
  }

  /** Appending rows of student `u` that are all preferences. */
  lemma OwnRowsAppended(entries: seq<Entry>, added: seq<Entry>, u: StudentId)
    requires forall e | e in added :: e.student == u && e.isRegister == 0
    ensures CourseCount(entries + added, u) == CourseCount(entries, u) + |added|
    ensures forall v | v != u :: Filter(entries + added, OwnedBy(v)) == Filter(entries, OwnedBy(v))
    ensures forall v :: Filter(entries + added, ConfirmedBy(v)) == Filter(entries, ConfirmedBy(v))
  {
    FilterAppend(entries, added, OwnedBy(u));
    FilterAll(added, OwnedBy(u));
    forall v | v != u
      ensures Filter(entries + added, OwnedBy(v)) == Filter(entries, OwnedBy(v))
    {
      FilterAppend(entries, added, OwnedBy(v));
      FilterNone(added, OwnedBy(v));
    }
    forall v
      ensures Filter(entries + added, ConfirmedBy(v)) == Filter(entries, ConfirmedBy(v))
    {
      FilterAppend(entries, added, ConfirmedBy(v));
      FilterNone(added, ConfirmedBy(v));
    }
  }

  /** Appending rows of student `u` adds exactly their course ids to the student's ids. */
  lemma OwnRowIds(entries: seq<Entry>, added: seq<Entry>, u: StudentId)
    requires forall e | e in added :: e.student == u
    ensures IdsWhere(entries + added, OwnedBy(u)) ==
              IdsWhere(entries, OwnedBy(u)) + (set e | e in added :: e.course.id)
  {
  }

  /** The rows written for a request carry exactly the selected course ids. */
  lemma NewEntriesIds(catalog: map<CourseId, string>, u: StudentId, sel: seq<Selection>)
    requires forall s | s in sel :: s.courseId in catalog
    ensures (set e | e in NewEntries(catalog, u, sel) :: e.course.id) == (set s | s in sel :: s.courseId)
  {
    var added := NewEntries(catalog, u, sel);
    var ids := set s | s in sel :: s.courseId;
    forall k | k in ids
      ensures k in (set e | e in added :: e.course.id)
    {
      var s :| s in sel && s.courseId == k;
      var i :| 0 <= i < |sel| && sel[i] == s;
      assert added[i] in added;
    }
  }

  /** A row for the pair (`u`, `c`) appended where one already exists makes two. */
  lemma PairRowAppended(entries: seq<Entry>, row: Entry, u: StudentId, c: CourseId, k: nat)
    requires k < |entries| && entries[k].student == u && entries[k].course.id == c
    requires row.student == u && row.course.id == c
    ensures |Filter(entries + [row], ForPair(u, c))| >= 2
  {
    var p := ForPair(u, c);
    assert p(entries[k]) && entries[k] in entries;
    assert |Filter(entries, p)| >= 1;
    assert p(row);
    FilterAll([row], p);
    FilterAppend(entries, [row], p);
  }


  /**
   * The limit looks only at the rows held before the call: with a known
   * student and catalog courses, the call succeeds exactly when the prior
   * count is at most `CourseLimit` (so 6 passes), whatever the number of
   * selections, and the count then grows by all of them.
   */
  lemma AddCoursesLimitIgnoresBatchSize(db: Db, u: StudentId, sel: seq<Selection>)
    requires u in db.students && forall s | s in sel :: s.courseId in db.catalog
    ensures AddCourses(db, u, sel).result.Ok? <==> CourseCount(db.entries, u) <= CourseLimit
    ensures CourseCount(db.entries, u) <= CourseLimit ==>
              CourseCount(AddCourses(db, u, sel).db.entries, u) == CourseCount(db.entries, u) + |sel|
  {
    AddCoursesChecksInOrder(db, u, sel);
    if CourseCount(db.entries, u) <= CourseLimit {
      AddCoursesCounts(db, u, sel);
    }
  }

  /**
   * No duplicate check: selecting a course the student already holds a row
   * for succeeds and leaves two rows for the pair, so DuplicateCourseEntry
   * never arises.
   */
  lemma AddCoursesAllowsDuplicate(db: Db, u: StudentId, k: nat, pref: int)
    requires u in db.students && CourseCount(db.entries, u) <= CourseLimit
    requires k < |db.entries| && db.entries[k].student == u && db.entries[k].course.id in db.catalog
    ensures AddCourses(db, u, [Selection(db.entries[k].course.id, pref)]).result.Ok?
    ensures |Filter(AddCourses(db, u, [Selection(db.entries[k].course.id, pref)]).db.entries,
                    ForPair(u, db.entries[k].course.id))| >= 2
  {
    var c := db.entries[k].course.id;
    var sel := [Selection(c, pref)];
    AddCoursesChecksInOrder(db, u, sel);
    var row := NewEntry(db.catalog, u, sel[0]);
    assert AddCourses(db, u, sel).db.entries == db.entries + [row];
    PairRowAppended(db.entries, row, u, c, k);
  }


  /** addCourses keeps the store's referential integrity. */
  lemma AddCoursesPreservesValid(db: Db, u: StudentId, sel: seq<Selection>)
    requires Valid(db)
    ensures Valid(AddCourses(db, u, sel).db)
  {
    if AddCourses(db, u, sel).result.Ok? {
      AddCoursesChecksInOrder(db, u, sel);
      var added := NewEntries(db.catalog, u, sel);
      forall e | e in db.entries + added
        ensures e.student in db.students && Listed(db.catalog, e.course) && 0 <= e.isRegister <= 1
      {
        if e !in db.entries {
          var i :| 0 <= i < |added| && added[i] == e;
        }
      }
    }
  }

  /**
   * addCourses adds preferences only: every student's confirmed listing is
   * what it was, and on success the student's added courses grow by exactly
   * the selected ids.
   */
  lemma AddCoursesListings(db: Db, u: StudentId, sel: seq<Selection>, v: StudentId)
    ensures ListCourse(AddCourses(db, u, sel).db, v) == ListCourse(db, v)
    ensures AddCourses(db, u, sel).result.Ok? ==>
              GetAddedCourses(AddCourses(db, u, sel).db, u).Keys ==
                GetAddedCourses(db, u).Keys + (set s | s in sel :: s.courseId)
  {
    if AddCourses(db, u, sel).result.Ok? {
      AddCoursesChecksInOrder(db, u, sel);
      var added := NewEntries(db.catalog, u, sel);
      assert AddCourses(db, u, sel).db == db.(entries := db.entries + added);
      OwnRowsAppended(db.entries, added, u);
      OwnRowIds(db.entries, added, u);
      NewEntriesIds(db.catalog, u, sel);
    }
  }


  // --------------------------------------------------------------- dropCourses

  /**
   * The checks of dropCourses in order: unknown student, then unknown
   * course; past them the drop succeeds exactly when the student holds a
   * row for the course. Every failure leaves the store as it was.
   */
  lemma DropCoursesChecksInOrder(db: Db, u: StudentId, c: CourseId)
    ensures u !in db.students ==> DropCourses(db, u, c).result == Err(UserNotFound(u))
    ensures u in db.students && c !in db.catalog ==> DropCourses(db, u, c).result == Err(CourseNotFound(c))
    ensures u in db.students && c in db.catalog ==>
              (DropCourses(db, u, c).result.Ok? <==>
                 exists e | e in db.entries :: e.student == u && e.course.id == c)
    ensures DropCourses(db, u, c).result.Err? ==> DropCourses(db, u, c).db == db
  {
    if u in db.students && c in db.catalog {
      match IndexOf(db.entries, ForPair(u, c))
      case None =>
        forall e | e in db.entries
          ensures !(e.student == u && e.course.id == c)
        {
          var j :| 0 <= j < |db.entries| && db.entries[j] == e;
        }
      case Some(k) =>
        assert db.entries[k] in db.entries;
    }
  }

  /**
   * A successful dropCourses returns the registration flag of the student's
   * first row for the course as it was before the delete, and afterwards no
   * row for the pair remains while every other row is kept, in order.
   */
  lemma DropCoursesReturnsPriorFlag(db: Db, u: StudentId, c: CourseId)
    requires DropCourses(db, u, c).result.Ok?
    ensures exists k | 0 <= k < |db.entries| ::
              && db.entries[k].student == u && db.entries[k].course.id == c
              && db.entries[k].isRegister == DropCourses(db, u, c).result.value
              && forall j | 0 <= j < k :: !(db.entries[j].student == u && db.entries[j].course.id == c)
    ensures forall e | e in DropCourses(db, u, c).db.entries ::
              e in db.entries && !(e.student == u && e.course.id == c)
    ensures DropCourses(db, u, c).db.entries == Filter(db.entries, OtherThanPair(u, c))
    ensures Valid(db) ==> 0 <= DropCourses(db, u, c).result.value <= 1
  {
    var k := IndexOf(db.entries, ForPair(u, c)).value;
    assert db.entries[k] in db.entries;
  }

  /** dropCourses keeps the store's referential integrity. */
  lemma DropCoursesPreservesValid(db: Db, u: StudentId, c: CourseId)
    requires Valid(db)
    ensures Valid(DropCourses(db, u, c).db)
  {
  }

  /**
   * Dropping a confirmed course (the call returns 1) lowers the student's
   * confirmed count and removes the course from their confirmed listing.
   */
  lemma DropConfirmedCourse(db: Db, u: StudentId, c: CourseId)
    requires ApprovalOf(db, u) >= 1 && DropCourses(db, u, c).result == Ok(1)
    ensures ConfirmedCount(DropCourses(db, u, c).db.entries, u) < ConfirmedCount(db.entries, u)
    ensures ListCourse(DropCourses(db, u, c).db, u).Ok?
    ensures c !in ListCourse(DropCourses(db, u, c).db, u).value
  {
    var k := IndexOf(db.entries, ForPair(u, c)).value;
    FilterFilterCountStrict(db.entries, ConfirmedBy(u), OtherThanPair(u, c), k);
  }

  // ---------------------------------------------------- listings and the report

  /**
   * For an approved student in a consistent store, listCourse names every
   * confirmed course under its catalog name, and those are among the added
   * courses, under the same names.
   */
  lemma ListCourseContents(db: Db, u: StudentId)
    requires Valid(db) && ApprovalOf(db, u) >= 1
    ensures ListCourse(db, u).Ok?
    ensures forall k | k in ListCourse(db, u).value ::
              k in db.catalog && ListCourse(db, u).value[k] == db.catalog[k]
    ensures ListCourse(db, u).value.Keys <= GetAddedCourses(db, u).Keys
    ensures forall k | k in ListCourse(db, u).value ::
              GetAddedCourses(db, u)[k] == ListCourse(db, u).value[k]
  {
    CourseMapNames(db.entries, ConfirmedBy(u), db.catalog);
    CourseMapNames(db.entries, OwnedBy(u), db.catalog);
  }

  /**
   * In a consistent store, getAddedCourses maps every course the student
   * holds a row for, preference or confirmed, to its catalog name.
   */
  lemma AddedCoursesNames(db: Db, u: StudentId)
    requires Valid(db)
    ensures forall k | k in GetAddedCourses(db, u) ::
              k in db.catalog && GetAddedCourses(db, u)[k] == db.catalog[k]
  {
    CourseMapNames(db.entries, OwnedBy(u), db.catalog);
  }

  /**
   * For an approved student in a consistent store, viewReportCard yields one
   * line per grade card of the student, in card order, each carrying the
   * card's course id, its catalog name and the grade; no cards give an
   * empty report, not a failure.
   */
  lemma ReportCardDetails(db: Db, u: StudentId)
    requires Valid(db) && ApprovalOf(db, u) >= 1
    ensures ViewReportCard(db, u).Ok?
    ensures ViewReportCard(db, u).value.studentId == u
    ensures |ViewReportCard(db, u).value.details| == |Positions(db.grades, GradedFor(u))|
    ensures forall i | 0 <= i < |Filter(db.grades, GradedFor(u))| ::
              var g := Filter(db.grades, GradedFor(u))[i];
              && ViewReportCard(db, u).value.details[i] == GradeDetail(g.course.id, g.course.name, g.grade)
              && g.student == u && db.catalog[g.course.id] == g.course.name
    ensures (forall g | g in db.grades :: g.student != u) ==> ViewReportCard(db, u).value.details == []
  {
    var cards := Filter(db.grades, GradedFor(u));
    FilterCountsPositions(db.grades, GradedFor(u));
    forall i | 0 <= i < |cards|
      ensures cards[i].student == u && db.catalog[cards[i].course.id] == cards[i].course.name
    {
      assert cards[i] in cards;
    }
    if forall g | g in db.grades :: g.student != u {
      FilterNone(db.grades, GradedFor(u));
    }
  }

  // ----------------------------------------------------------------- scenario

  /** A student without rows has no added courses and, if approved, an empty confirmed listing. */
  lemma NoRowsNoListings(db: Db, u: StudentId)
    requires ApprovalOf(db, u) >= 1 && CourseCount(db.entries, u) == 0
    ensures GetAddedCourses(db, u) == map[]
    ensures ListCourse(db, u) == Ok(map[])
  {
    assert Filter(db.entries, OwnedBy(u)) == [];
    assert IdsWhere(db.entries, OwnedBy(u)) == {};
    assert IdsWhere(db.entries, ConfirmedBy(u)) == {};
  }

  /**
   * A student with no rows who adds catalog courses holds exactly those
   * courses afterwards, none of them confirmed yet.
   */
  lemma FirstAddToEmpty(db: Db, u: StudentId, sel: seq<Selection>)
    requires u in db.students && ApprovalOf(db, u) >= 1 && CourseCount(db.entries, u) == 0
    requires forall s | s in sel :: s.courseId in db.catalog
    ensures AddCourses(db, u, sel).result.Ok?
    ensures GetAddedCourses(AddCourses(db, u, sel).db, u).Keys == set s | s in sel :: s.courseId
    ensures ListCourse(AddCourses(db, u, sel).db, u) == Ok(map[])
  {
    AddCoursesChecksInOrder(db, u, sel);
    AddCoursesListings(db, u, sel, u);
    NoRowsNoListings(db, u);
  }

  /**
   * An approved student without rows adds two catalog courses, say CS101
   * and CS102: both appear among the added courses while the confirmed
   * listing stays empty.
   */
  lemma AddTwoCoursesScenario(db: Db, u: StudentId, c1: CourseId, c2: CourseId)
    requires u in db.students && ApprovalOf(db, u) >= 1 && CourseCount(db.entries, u) == 0
    requires c1 in db.catalog && c2 in db.catalog
    ensures AddCourses(db, u, [Selection(c1, 1), Selection(c2, 2)]).result.Ok?
    ensures GetAddedCourses(AddCourses(db, u, [Selection(c1, 1), Selection(c2, 2)]).db, u).Keys == {c1, c2}
    ensures ListCourse(AddCourses(db, u, [Selection(c1, 1), Selection(c2, 2)]).db, u) == Ok(map[])
  {
    var sel := [Selection(c1, 1), Selection(c2, 2)];
    FirstAddToEmpty(db, u, sel);
    TwoSelectionIds(c1, c2);
  }

  lemma TwoSelectionIds(c1: CourseId, c2: CourseId)
    ensures (set s | s in [Selection(c1, 1), Selection(c2, 2)] :: s.courseId) == {c1, c2}
  {
    var sel := [Selection(c1, 1), Selection(c2, 2)];
    assert sel[0] in sel && sel[1] in sel;
  }
}

=== FILE: student_store.dfy ===
/**
 * The student service over a mutable in-memory store. The fields are the
 * store's tables; each method is one service operation, run as one atomic
 * step, and is proved to return what the matching function of
 * `StudentOperation` returns and to leave the store in the state it gives.
 */
module StudentStore {
  import opened SeqUtil
  import opened CrsModel
  import Op = StudentOperation
  import StudentOperationLemmas

  /** Puts every row's id and name into a fresh map, in order, as a hash map's put would. */
  method PutAll(rows: seq<Course>) returns (m: map<CourseId, string>)
    ensures m == CourseMap(rows)
  {
    m := map[];
    for i := 0 to |rows|
      invariant m == CourseMap(rows[..i])
    {
      assert rows[..i + 1][..i] == rows[..i];
      m := m[rows[i].id := rows[i].name];
    }
    assert rows[..|rows|] == rows;
  }

  class Store {
    var students: set<StudentId>
    var catalog: map<CourseId, string>
    var entries: seq<Entry>
    var grades: seq<GradeRecord>
    var approval: map<StudentId, int>
    var registrationRequests: set<StudentId>

    /** The store's current contents as a snapshot. */
    function State(): Db
      reads this
    {
      Db(students, catalog, entries, grades, approval, registrationRequests)
    }

    ghost predicate Valid()
      reads this
    {
      CrsModel.Valid(State())
    }

    constructor (db: Db)
      requires CrsModel.Valid(db)
      ensures Valid() && State() == db
    {
      students, catalog, entries := db.students, db.catalog, db.entries;
      grades, approval, registrationRequests := db.grades, db.approval, db.registrationRequests;
    }

    /** registerCourses. */
    method RegisterCourses(u: StudentId) returns (r: Result<()>)
      requires Valid()
      modifies this
      ensures Valid()
      ensures Op.Step(r, State()) == Op.RegisterCourses(old(State()), u)
    {
      if u !in students {
        return Err(UserNotFound(u));
      }
      registrationRequests := registrationRequests + {u};
      r := Ok(());
    }

    /**
     * addCourses: the checks in order, then a first pass that validates every
     * selected course id, then a second pass that writes one row each.
     */
    method AddCourses(u: StudentId, sel: seq<Selection>) returns (r: Result<()>)
      requires Valid()
      modifies this
      ensures Valid()
      ensures r.Err? ==> entries == old(entries)
      ensures r.Ok? ==> (forall s | s in sel :: s.courseId in catalog) &&
                        entries == old(entries) + Op.NewEntries(catalog, u, sel)
      ensures Op.Step(r, State()) == Op.AddCourses(old(State()), u, sel)
    {
      StudentOperationLemmas.AddCoursesPreservesValid(State(), u, sel);
      StudentOperationLemmas.AddCoursesChecksInOrder(State(), u, sel);
      if u !in students {
        return Err(UserNotFound(u));
      }
      if CourseCount(entries, u) > CourseLimit {
        return Err(CourseLimitExceeded);
      }
      for i := 0 to |sel|
        invariant forall j | 0 <= j < i :: sel[j].courseId in catalog
      {
        if sel[i].courseId !in catalog {
          return Err(CourseNotFound(sel[i].courseId));
        }
      }
      ghost var added := Op.NewEntries(catalog, u, sel);
      for i := 0 to |sel|
        invariant students == old(students) && catalog == old(catalog) && grades == old(grades)
        invariant approval == old(approval) && registrationRequests == old(registrationRequests)
        invariant entries == old(entries) + added[..i]
      {
        assert added[..i + 1] == added[..i] + [Op.NewEntry(catalog, u, sel[i])];
        entries := entries + [Op.NewEntry(catalog, u, sel[i])];
      }
      assert added[..|sel|] == added;
      r := Ok(());
    }

    /**
     * dropCourses: the checks in order, then the registration flag is read,
     * the pair's rows are deleted and the flag read is returned; with no row
     * to read the delete has removed nothing and the call fails.
     */
    method DropCourses(u: StudentId, c: CourseId) returns (r: Result<int>)
      requires Valid()
      modifies this
      ensures Valid()
      ensures Op.Step(r, State()) == Op.DropCourses(old(State()), u, c)
    {
      StudentOperationLemmas.DropCoursesPreservesValid(State(), u, c);
      if u !in students {
        return Err(UserNotFound(u));
      }
      if c !in catalog {
        return Err(CourseNotFound(c));
      }
      var isRegister := Op.CoursePreference(entries, u, c);
      if isRegister.None? {
        FilterAll(entries, OtherThanPair(u, c));
      }
      entries := Filter(entries, OtherThanPair(u, c));
      if isRegister.None? {
        return Err(PreferenceMissing(u, c));
      }
      r := Ok(isRegister.value);
    }

    /** listCourse: the approval check, then the confirmed rows put into a map. */
    method ListCourse(u: StudentId) returns (r: Result<map<CourseId, string>>)
      ensures r == Op.ListCourse(State(), u)
    {
      if ApprovalOf(State(), u) < 1 {
        return Err(UserNotApproved(u));
      }
      var courses := PutAll(CoursesOf(Filter(entries, ConfirmedBy(u))));
      r := Ok(courses);
    }

    /** getAddedCourses: all of the student's rows put into a map. */
    method GetAddedCourses(u: StudentId) returns (m: map<CourseId, string>)
      ensures m == Op.GetAddedCourses(State(), u)
    {
      m := PutAll(CoursesOf(Filter(entries, OwnedBy(u))));
    }

    /** viewReportCard: the approval check, then one line appended per grade card. */
    method ViewReportCard(u: StudentId) returns (r: Result<GradeReport>)
      ensures r == Op.ViewReportCard(State(), u)
    {
      if ApprovalOf(State(), u) < 1 {
        return Err(UserNotApproved(u));
      }
      if u !in students {
        return Err(UserNotFound(u));
      }
      var cards := Filter(grades, GradedFor(u));
      var details: seq<GradeDetail> := [];
      for i := 0 to |cards|
        invariant |details| == i
        invariant forall k | 0 <= k < i :: details[k] == Detail(cards[k])
      {
        details := details + [Detail(cards[i])];
      }
      assert details == Details(cards);
      r := Ok(GradeReport(u, details));
    }
  }
}
